=== FILE: README.md ===
# User-account backend core, modelled in Dafny

This project models the decision logic of a small Express/MongoDB/Redis
user-account backend:

- the `User` model: what the schema setters do to `username`, `email` and
  `fullName`, which paths are required, the unique `username`/`email`
  indexes, the `pre("save")` hook that hashes a modified password,
  `isPasswordCorrect`, and the claims placed in access and refresh tokens;
- `registerUser`: the ordered checks (blank fields, existing user, missing
  avatar, failed avatar upload), the uploads and the insert, as a pure
  function from the request, the upload outcomes and the users collection
  to a reply and the new collection;
- `verifyJWT`: choosing the token (cookie first, then the `Authorization`
  header with the first `"Bearer "` removed), verifying it with the access
  secret, loading the user, and collapsing every failure into one 401;
- the `ApiError` and `ApiResponse` envelopes;
- the response caches `cache(duration)` and `catchAsync(duration)` as
  transitions of a key-value store.

The libraries are abstract. bcrypt is a `Hasher`, a pair of function values
(`hash`, `compare`); the only property assumed of it, `compare(p, hash(p))`,
is the predicate `Sound`, used as a premise. jsonwebtoken is a `Jwt`, a pair
(`sign`, `verify`). `Consistent` says a token signed with a usable (non-empty) secret and
expiry is non-empty and verifies with its own secret, giving back every signed claim plus at most
the registered claims `iat` and `exp` that jsonwebtoken adds. `SecretBound` says it verifies with no other
secret. The media upload is a function `string -> Option<url>`. Redis is
`Up(map<string, string>)` or `Down`. `JSON.stringify` and `JSON.parse` form
a `Codec`; `Faithful` says parsing a stringified value gives it back. The
MongoDB collection is a `Store`: a map from ids to users, plus a counter
that stands in for ObjectId generation.

Files: `base.dfy` (Option, Result, truthiness), `text.dfy` (JavaScript
`trim`, `toLowerCase`, first-occurrence `replace`), `envelope.dfy`,
`user_model.dfy`, `registration.dfy`, `auth_gate.dfy`,
`response_cache.dfy`.

What the code does, and so what the model does:
- There is no login, logout, token refresh or password change, and nothing
  reads the stored `refreshToken`. The model has none of these flows.
- The access token carries the stored password hash as well as the id,
  username, full name and email (`AccessTokenClaims`).
- A successful registration answers HTTP 201 with an envelope whose own
  `statusCode` is 200 (`RegisterCreatesOneUser`).
- The username conflict check is case-insensitive only because Mongoose
  runs the `lowercase` and `trim` setters on query filter values as well as
  on stored ones. The model assumes this Mongoose behaviour. It then proves
  that the conflict query and the unique indexes agree, so in a sequential
  run, one request at a time, the insert in `registerUser` never fails
  (`RegisterNeverCrashes`).

## Model

| member | source | states |
|---|---|---|
| `Text.Trim` | src/controllers/user.controllers.js:13 | the trimmed string has no ECMAScript whitespace at either end, and it is empty exactly when the input is all whitespace |
| `Text.TrimIsInfix` | src/models/user.model.js:12 | trimming removes only a whitespace prefix and a whitespace suffix; the rest of the string is kept in place |
| `Text.TrimIdempotent` | src/models/user.model.js:26 | trimming an already trimmed value changes nothing |
| `Text.TrimToLowerCommute` | src/models/user.model.js:12-13 | trimming and lower-casing commute, so the order of the two setters does not matter |
| `Text.ToLower` | src/models/user.model.js:13 | `toLowerCase` keeps the length and maps each character on its own |
| `Text.ToLowerKeepsNonLetters` | src/controllers/user.controllers.js:45 | lower-casing leaves no upper-case ASCII letter and keeps every other character in place |
| `Text.IndexFrom` | src/middlewares/auth.middleware.js:8 | the string search behind `replace` finds the first occurrence at or after the start; when it finds none, the pattern occurs nowhere |
| `Text.RemoveFirst` | src/middlewares/auth.middleware.js:8 | `replace("Bearer ", "")` removes only the first occurrence, wherever it is; without an occurrence the header is kept whole |
| `Text.RemoveFirstPrefix` | src/middlewares/auth.middleware.js:8 | a header that starts with the pattern loses exactly that prefix |
| `Envelope.NewApiError` | src/utils/apiError.js:10-28 | status kept; message defaults to "Something went wrong" and a supplied one is kept; errors default to [] and a supplied list is kept; success is false and data is null; a non-empty stack is kept, otherwise the trace is captured |
| `Envelope.ApiErrorTestCases` | tests/utils/apiError.test.js:4-25 | the two test scenarios: all arguments supplied, and only the status supplied |
| `Envelope.NewApiResponse` | src/utils/apiResponse.js:10-15 | status and data stored unchanged for any payload type; message defaults to "Success"; success holds exactly when the status is below 400 |
| `Envelope.EnvelopesAgreeOnFailure` | src/utils/apiResponse.js:14 | an error envelope never reports success; for any status of 400 or above a response envelope also reports failure |
| `Envelope.ResponseJson` | src/utils/apiResponse.js:11-14 | the JSON of a response envelope has exactly the keys statusCode, data, message and success, and each carries the envelope's own status, data, message and success flag |
| `UserModel.Public` | src/controllers/user.controllers.js:54 | the projection keeps the id, username, email, full name, avatar, cover image and watch history of the stored user |
| `UserModel.PublicHidesSecrets` | src/controllers/user.controllers.js:54 | the projection without password and refresh token does not depend on either of them |
| `UserModel.NormalizeKeyFacts` | src/models/user.model.js:8-22 | a username or email after its setters is trimmed and lower-case; it is empty exactly when the raw value was whitespace; lower-casing before the setters changes nothing |
| `UserModel.Cast` | src/models/user.model.js:8-27 | a present username or email becomes its lower-cased value with surrounding whitespace removed, a present fullName its trimmed value with case kept; absent fields stay absent; password, avatar and cover image pass unchanged |
| `UserModel.CastNormalForm` | src/models/user.model.js:8-27 | the stored username and email equal lower-casing the trimmed input, so the setter order does not matter, and they are fixed points of both setters; the stored fullName is the trimmed input with case kept; casting twice is casting once |
| `UserModel.RequiredViolations` | src/models/user.model.js:8-44 | exactly the four required paths (username, email, fullName, password) whose cast value is absent or empty are reported; avatar, coverImage, watchHistory and refreshToken never are |
| `UserModel.RequiredOnRawFields` | src/models/user.model.js:8-44 | from the raw values: a whitespace-only username, email or fullName is reported, but a whitespace-only password is not |
| `UserModel.Save` | src/models/user.model.js:53-58 | a modified password is replaced by its hash, an unmodified one is kept, every other field is kept, and afterwards nothing is modified |
| `UserModel.SaveNeverDoubleHashes` | src/models/user.model.js:54 | saving a saved document again changes nothing, so a hash is never hashed again |
| `UserModel.IsPasswordCorrect` | src/models/user.model.js:61-63 | with a sound bcrypt, the password whose hash is stored is accepted |
| `UserModel.SetThenSaveVerifies` | src/models/user.model.js:53-63 | with a sound bcrypt, a password that was set and then saved passes `isPasswordCorrect` |
| `UserModel.Create` | src/controllers/user.controllers.js:44-51 | create fails validation exactly when a required path is missing, and fails on a duplicate key exactly when the cast username or email is taken; on success the collection gains the cast user under the next id, with the hashed password and no refresh token |
| `UserModel.CreatePreservesValid` | src/models/user.model.js:11-19 | a successful create keeps ids consistent and usernames and emails unique, and adds exactly one document under a fresh id |
| `UserModel.InsertPreservesValid` | src/models/user.model.js:11-19 | inserting a user whose username and email are both free keeps both unique indexes |
| `UserModel.ClaimedId` | src/middlewares/auth.middleware.js:16 | `decoded?._id` names a document id exactly when the payload has an `_id` id claim |
| `UserModel.GenerateAccessToken` | src/models/user.model.js:66-77 | under a consistent jsonwebtoken and a set access secret and expiry, the token is non-empty and verifies with the access secret, giving back the signed user claims plus at most `iat` and `exp` |
| `UserModel.GenerateRefreshToken` | src/models/user.model.js:80-87 | under a consistent jsonwebtoken and a set refresh secret and expiry, the token is non-empty and verifies with the refresh secret, giving back the id claim plus at most `iat` and `exp` |
| `UserModel.AccessTokenClaims` | src/models/user.model.js:66-77 | an access token verified with the access secret decodes to the claims _id, username, fullName, email and password, the last being the stored hash, and apart from them only the registered claims `iat` and `exp` |
| `UserModel.RefreshTokenClaims` | src/models/user.model.js:80-87 | a refresh token verified with the refresh secret decodes to the _id claim and apart from it only `iat` and `exp`; when the secrets differ it does not verify with the access secret |
| `UserModel.IssuedAtAllowed` | src/models/user.model.js:75 | a decoded payload that adds an `iat` date to the signed claims meets the premise of the token lemmas, and one that adds any other claim does not |
| `Registration.AnyBlank` | src/controllers/user.controllers.js:13 | the first check passes exactly when fullName, username, email and password are all present and none is whitespace only |
| `Registration.AlreadyRegistered` | src/controllers/user.controllers.js:18-21 | the conflict query can only find a user in a non-empty collection |
| `Registration.ConflictIgnoresCaseAndPadding` | src/controllers/user.controllers.js:18-21 | the case and surrounding whitespace of the username and email sent make no difference to the conflict check, because the query values pass the same setters as stored ones |
| `Registration.NewUserFields` | src/controllers/user.controllers.js:44-51 | once cast, the fields sent to create are the normalised username and email, the trimmed fullName, the password unchanged, the avatar url and the cover url or ""; the controller's own lower-casing of the username changes nothing |
| `Registration.UploadOrder` | src/controllers/user.controllers.js:33-37 | the avatar is uploaded first and nothing else is uploaded, except the cover image second exactly when a cover path was sent |
| `Registration.Register` | src/controllers/user.controllers.js:8-65 | the checks run in order (blank field 400, existing user 409, missing avatar 400, failed avatar upload 500) and the first failure decides the reply; no upload happens before the avatar check passes; the collection changes only on success |
| `Registration.CreatedIffChecksPass` | src/controllers/user.controllers.js:13-64 | a registration succeeds exactly when it passes every check: no blank field, no conflicting user, an avatar path sent and its upload back |
| `Registration.RejectionStatuses` | src/controllers/user.controllers.js:13-41 | every rejection is a failed ApiError with status 400, 409 or 500 and null data |
| `Registration.ChecksImplyCreate` | src/controllers/user.controllers.js:13-51 | fields that pass the blank and conflict checks also pass the schema's required paths and unique indexes |
| `Registration.RegisterNeverCrashes` | src/controllers/user.controllers.js:44-51 | in a sequential run, `User.create` never fails after the controller's checks: neither a required-path validation error nor a duplicate key |
| `Registration.RegisterCreatesOneUser` | src/controllers/user.controllers.js:44-64 | success adds exactly one fresh user: lower-cased trimmed username, normalised email, trimmed fullName, hashed password, avatar url, cover url or ""; the reply is HTTP 201 with envelope status 200 and the user without secrets |
| `Registration.RegisterTwiceConflicts` | src/controllers/user.controllers.js:18-23 | after a successful registration, another one with the same username or email gets 409 "User already exists" and changes nothing |
| `Registration.RegisteredPasswordVerifies` | src/models/user.model.js:61-63 | with a sound bcrypt, the password sent at registration verifies against the stored user |
| `AuthGate.InvalidToken` | src/middlewares/auth.middleware.js:24-25 | the gate's one error: status 401, "Invalid token. Please log in again.", success false, null data and no errors, as `new ApiError(401, message)` builds it |
| `AuthGate.SelectToken` | src/middlewares/auth.middleware.js:8-10 | a usable cookie wins; otherwise the header with its first "Bearer " removed; an empty result counts as no token |
| `AuthGate.VerifyJwt` | src/middlewares/auth.middleware.js:6-27 | every failure is the same 401; the request proceeds exactly when a token is chosen, verifies with the access secret, names an id, and that id is stored; the user handed on is the stored one without secrets |
| `AuthGate.BearerHeader` | src/middlewares/auth.middleware.js:8 | without a usable cookie, "Bearer t" yields t, and a bare "Bearer " yields no token |
| `AuthGate.NoTokenDenied` | src/middlewares/auth.middleware.js:10-11 | a request with no token is refused with the collapsed 401, not the message of line 11 |
| `AuthGate.IssuedAccessTokenPasses` | src/middlewares/auth.middleware.js:14-23 | an access token issued for a stored user passes the gate as the cookie or as a bearer header, and the user handed on is that stored user without secrets |
| `AuthGate.RemovedUserDenied` | src/middlewares/auth.middleware.js:16-19 | a valid token whose user is gone is refused with the collapsed 401, not the message of line 19 |
| `AuthGate.RefreshTokenDenied` | src/middlewares/auth.middleware.js:14 | a refresh token is refused when the access and refresh secrets differ |
| `AuthGate.OnlyAccessSecretMatters` | src/middlewares/auth.middleware.js:14 | the outcome depends on the configuration only through the access secret |
| `AuthGate.CookieWins` | src/middlewares/auth.middleware.js:8 | with a non-empty cookie, the header makes no difference |
| `ResponseCache.Cached` | src/middlewares/cache.middleware.js:9-10 | a lookup hits exactly when the key holds a non-empty string |
| `ResponseCache.Cache` | src/middlewares/cache.middleware.js:4-34 | next is skipped exactly on a hit whose value parses, which replays the parsed value; a call of next passes the downstream reply through unchanged; a hit, parsing or not, leaves the store alone; the store changes only on a miss with a 2xx reply, and then exactly by storing its body under "cache:" + url |
| `ResponseCache.CatchAsync` | src/middlewares/catch.middleware.js:4-34 | next is skipped exactly on a hit whose value parses, which answers 200 with ApiResponse(200, value, "Data retrieved from cache"); a call of next passes the downstream reply through unchanged; a hit, parsing or not, leaves the store alone; a miss stores every body sent, whatever its status, under "catchAsync:" + url, and nothing else changes the store |
| `ResponseCache.KeysDisjoint` | src/middlewares/catch.middleware.js:6 | each middleware's key determines the url, and no "cache:" key equals a "catchAsync:" key |
| `ResponseCache.CacheMiss` | src/middlewares/cache.middleware.js:14-28 | a miss calls next once, stores a 2xx body and leaves the store unchanged for any other reply |
| `ResponseCache.CacheRoundTrip` | src/middlewares/cache.middleware.js:9-22 | a 2xx body cached on a miss is replayed unchanged to the next request for the url, without calling next |
| `ResponseCache.CacheSkipsErrors` | src/middlewares/cache.middleware.js:20 | a non-2xx reply is not cached, and the next request goes through again |
| `ResponseCache.CatchMiss` | src/middlewares/catch.middleware.js:22-29 | a miss calls next once and stores the body of any reply sent, whatever its status |
| `ResponseCache.CatchRoundTrip` | src/middlewares/catch.middleware.js:9-27 | whatever catchAsync stored is replayed as a 200 success envelope carrying the body, even a body first sent with an error status |
| `ResponseCache.MiddlewaresDoNotInterfere` | src/middlewares/cache.middleware.js:6 | running one middleware leaves every entry of the other unchanged |
| `ResponseCache.DownStorePassesThrough` | src/middlewares/cache.middleware.js:29-31 | when the store fails, either middleware calls next, passes the reply through and stores nothing |

## Left out

- Text.ToLower: lower-cases only ASCII `A`–`Z`. JavaScript's `toLowerCase` follows the full Unicode case mapping; the model does not include Unicode case tables.
- Text.ToLowerKeepsNonLetters: "every other character is kept" holds for the ASCII-only mapping; under JavaScript's `toLowerCase` non-ASCII capitals such as 'É' change too.
- Timestamps (`createdAt`, `updatedAt`) are not modelled, because they come from the clock.
- bcrypt and jsonwebtoken are abstract function values, so there is no cryptography. Token expiry depends on a clock and is not modelled. `Consistent` describes a token within its lifetime, and `verify` may return `None` for any other reason.
- The Cloudinary upload is the `upload` function. Its deletion of the local file after a failure is I/O and is not modelled.
- Redis is one snapshot per request, either reachable or failing. The `duration` time-to-live is not modelled. Neither is a `setex` failure: the call is not awaited, and its failure is not modelled. When Redis stays unreachable the rejected command is an unhandled rejection, which by default ends the process on Node 15 and later; no handler for it is installed.
- `JSON.stringify` and `JSON.parse` are the `Codec` parameter, not an implementation.
- UserModel.GenerateAccessToken: `jwt.sign` throws when `JWT_SECRET` or `JWT_EXPIRY` is unset or empty, or when `JWT_EXPIRY` is not a valid timespan (such as "abc"). The function is total and promises nothing about the token it returns for an unset or empty value; the token lemmas require a `WellFormed` configuration, which treats every non-empty expiry as a valid timespan.
- UserModel.AccessTokenClaims: promises a verifying token for any non-empty `JWT_EXPIRY`, including one that is not a valid timespan, for which the source throws; timespan syntax is not modelled.
- UserModel.GenerateRefreshToken: likewise throws when `JWT_REFRESH_SECRET` or `JWT_REFRESH_EXPIRY` is unset or empty; the throw is not modelled, and an expiry string that is not a valid timespan is treated like any other non-empty one.
- ResponseCache.Cache: a hit replays with status 200. In the source the status is whatever `res.statusCode` holds at that point, which is 200 unless an earlier middleware changed it.
- Registration.Register: request body fields are strings or absent. A non-string field, which makes `trim` throw, is not modelled.
- Registration.Register: database I/O failures are not modelled. In the model the read back after `User.create` always finds the new user, so the "Failed to create user" branch cannot be reached.
- How Express's default error handler turns a thrown error into an HTTP reply is not modelled. The model stops at the `ApiError`, or at the database error for `Crashed`.
- `asyncHandler` is the framework glue that passes a thrown error to `next(err)`. The model represents this as the `Rejected`/`Deny` outcomes.
- ObjectIds are modelled as a counter in the store. Only their freshness matters here.
- `watchHistory` is a sequence of ids. The `Video` model it references is not modelled.
- The route table, multer, rate limiting, the server and database bootstrap, the Redis client setup, and the `Video` and `Subscription` schemas are wiring or configuration with no decision logic.
- Login, logout, token refresh and password change are not modelled, because no code for them exists.
- Registration.RegisterNeverCrashes: holds for one request at a time only. Concurrent requests are not modelled: two registrations with the same username or email can both pass the conflict query before either insert, and the second insert then fails on the unique index with a 500.
- Envelope.ResponseJson: JSON numbers are integers (`JNum(n: int)`). Fractional numbers are not modelled because no modelled operation looks at a number's value: the envelopes carry integer status codes, and the two caches store and replay response bodies without inspecting them.
- Registration.AlreadyRegistered: its contract states only that an empty collection never conflicts. What the query matches is given by `ConflictIgnoresCaseAndPadding`, `ChecksImplyCreate` and `RegisterTwiceConflicts`.

=== FILE: auth_gate.dfy ===
/** `verifyJWT`: the gate in front of protected routes. It picks the access
    token from the cookie or the `Authorization` header, verifies it with the
    access secret and loads the user it names. */
module AuthGate {
  import opened Base
  import opened Text
  import opened Envelope
  import opened UserModel

  /** What the gate reads of a request: `req.cookies?.accessToken` and
      `req.header("Authorization")`. */
  datatype Request = Request(accessCookie: Option<string>, authorization: Option<string>)

  /** `Proceed`: `req.user` is set and `next()` is called once, without an
      error. `Deny`: the error thrown, which the async wrapper passes to
      `next(err)`. */
  datatype GateResult = Proceed(user: PublicUser) | Deny(error: ApiError)

  const BearerPrefix := "Bearer "
  const InvalidTokenMessage := "Invalid token. Please log in again."

  /** The only error the gate ever produces: the `catch` rethrows every
      failure, including the two thrown inside the `try`, as this one. */
  function InvalidToken(): (e: ApiError)
    ensures e.statusCode == 401 && e.message == InvalidTokenMessage && !e.success
    ensures e == NewApiError(401, Some(InvalidTokenMessage), None, None)
  {
    Fail(401, InvalidTokenMessage)
  }

  /** `req.cookies?.accessToken || req.header("Authorization")?.replace("Bearer ", "")`,
      with an empty result read as no token. */
  function SelectToken(req: Request): (t: Option<string>)
    ensures t.Some? ==> t.value != ""
    ensures Truthy(req.accessCookie) ==> t == req.accessCookie
    ensures !Truthy(req.accessCookie) && req.authorization.None? ==> t.None?
    ensures !Truthy(req.accessCookie) && req.authorization.Some? ==>
      var stripped := RemoveFirst(req.authorization.value, BearerPrefix);
      t == if stripped == "" then None else Some(stripped)
  {
    if Truthy(req.accessCookie) then req.accessCookie
    else match req.authorization
      case None => None
      case Some(header) =>
        var stripped := RemoveFirst(header, BearerPrefix);
        if stripped == "" then None else Some(stripped)
  }

  /** `verifyJWT`: every failure (no token, a token that does not verify with
      the access secret, a payload without an id, an id with no user) is the
      same 401; success hands on the stored user without its secrets. */
  function VerifyJwt(req: Request, cfg: TokenConfig, jwt: Jwt, st: Store): (r: GateResult)
    ensures r.Deny? ==> r.error == InvalidToken()
    ensures r.Proceed? <==>
      && SelectToken(req).Some?
      && jwt.verify(SelectToken(req).value, cfg.accessSecret).Some?
      && ClaimedId(jwt.verify(SelectToken(req).value, cfg.accessSecret).value).Some?
      && ClaimedId(jwt.verify(SelectToken(req).value, cfg.accessSecret).value).value in st.users
    ensures r.Proceed? ==>
      r.user == Public(st.users[ClaimedId(jwt.verify(SelectToken(req).value, cfg.accessSecret).value).value])
  {
    match SelectToken(req)
    case None => Deny(InvalidToken())
    case Some(token) =>
      match jwt.verify(token, cfg.accessSecret)
      case None => Deny(InvalidToken())
      case Some(decoded) =>
        match ClaimedId(decoded)
        case None => Deny(InvalidToken())
        case Some(id) =>
          if id in st.users then Proceed(Public(st.users[id])) else Deny(InvalidToken())
  }

  /** A header of the form "Bearer <token>" yields the token when there is no
      usable cookie, and a bare "Bearer " header yields no token at all. */
  lemma BearerHeader(token: string, cookie: Option<string>)
    requires !Truthy(cookie)
    ensures token != "" ==> SelectToken(Request(cookie, Some(BearerPrefix + token))) == Some(token)
    ensures SelectToken(Request(cookie, Some(BearerPrefix))) == None
  {
    RemoveFirstPrefix(BearerPrefix, token);
    RemoveFirstPrefix(BearerPrefix, "");
    assert BearerPrefix + "" == BearerPrefix;
  }

  /** A request with neither a usable cookie nor a header is refused. */
  lemma NoTokenDenied(cookie: Option<string>, cfg: TokenConfig, jwt: Jwt, st: Store)
    requires !Truthy(cookie)
    ensures VerifyJwt(Request(cookie, None), cfg, jwt, st) == Deny(InvalidToken())
    ensures VerifyJwt(Request(cookie, Some(BearerPrefix)), cfg, jwt, st) == Deny(InvalidToken())
  {
    BearerHeader("", cookie);
  }

  /** An access token issued for a stored user opens the gate, whether it
      comes as the cookie or, without a cookie, as a bearer header; the user
      handed on is the stored one without its secrets. */
  lemma IssuedAccessTokenPasses(u: User, cfg: TokenConfig, jwt: Jwt, st: Store,
                                header: Option<string>, cookie: Option<string>)
    requires Consistent(jwt) && WellFormed(cfg)
    requires u.id in st.users
    requires !Truthy(cookie)
    ensures var token := GenerateAccessToken(u, cfg, jwt);
      && VerifyJwt(Request(Some(token), header), cfg, jwt, st) == Proceed(Public(st.users[u.id]))
      && VerifyJwt(Request(cookie, Some(BearerPrefix + token)), cfg, jwt, st) == Proceed(Public(st.users[u.id]))
  {
    AccessTokenClaims(u, cfg, jwt);
    var token := GenerateAccessToken(u, cfg, jwt);
    assert token != "";
    BearerHeader(token, cookie);
  }

  /** A token whose user is gone is refused, however valid the token. */
  lemma RemovedUserDenied(u: User, cfg: TokenConfig, jwt: Jwt, st: Store, header: Option<string>)
    requires Consistent(jwt) && WellFormed(cfg)
    requires u.id !in st.users
    ensures VerifyJwt(Request(Some(GenerateAccessToken(u, cfg, jwt)), header), cfg, jwt, st)
      == Deny(InvalidToken())
  {
    AccessTokenClaims(u, cfg, jwt);
  }

  /** A refresh token does not open the gate when the two secrets differ:
      only the access secret is ever tried. */
  lemma RefreshTokenDenied(u: User, cfg: TokenConfig, jwt: Jwt, st: Store, header: Option<string>)
    requires Consistent(jwt) && SecretBound(jwt) && WellFormed(cfg)
    requires cfg.accessSecret != cfg.refreshSecret
    ensures VerifyJwt(Request(Some(GenerateRefreshToken(u, cfg, jwt)), header), cfg, jwt, st)
      == Deny(InvalidToken())
  {
    RefreshTokenClaims(u, cfg, jwt);
  }

  /** The gate reads no part of the configuration but the access secret. */
  lemma OnlyAccessSecretMatters(req: Request, cfg: TokenConfig, cfg2: TokenConfig, jwt: Jwt, st: Store)
    requires cfg.accessSecret == cfg2.accessSecret
    ensures VerifyJwt(req, cfg, jwt, st) == VerifyJwt(req, cfg2, jwt, st)
  {
  }

  /** The cookie, when usable, wins over any header. */
  lemma CookieWins(token: string, header: Option<string>, cfg: TokenConfig, jwt: Jwt, st: Store)
    requires token != ""
    ensures VerifyJwt(Request(Some(token), header), cfg, jwt, st)
         == VerifyJwt(Request(Some(token), None), cfg, jwt, st)
  {
  }
}

=== FILE: base.dfy ===
/** Failure-carrying wrappers shared by every module of the model:
    `Option` stands for a JavaScript value that may be `undefined`/`null`,
    `Result` for an operation that either yields a value or throws. */
module Base {

  datatype Option<+T> = None | Some(value: T)

  datatype Result<+T, +E> = Ok(value: T) | Err(error: E)

  /** JavaScript truthiness of an optional string: present and non-empty. */
  predicate Truthy(s: Option<string>) {
    s.Some? && s.value != ""
  }
}

=== FILE: envelope.dfy ===
/** The two response shapes of the API: `ApiError` (thrown on failure) and
    `ApiResponse` (sent on success), plus the JSON values they carry. */
module Envelope {
  import opened Base

  /** A JSON value, as `res.json` sends it and `JSON.parse` reads it. */
  datatype Json =
    | JNull
    | JBool(b: bool)
    | JNum(n: int)
    | JStr(s: string)
    | JArr(items: seq<Json>)
    | JObj(fields: map<string, Json>)

  /** Where an error's stack trace comes from: supplied by the caller, or
      captured by the runtime at construction. */
  datatype Stack = Supplied(trace: string) | Captured

  datatype ApiError = ApiError(
    statusCode: int,
    data: Json,
    message: string,
    success: bool,
    errors: seq<Json>,
    stack: Stack)

  /** The success envelope; the payload type is left open because the
      constructor never looks at it. */
  datatype ApiResponse<T> = ApiResponse(
    statusCode: int,
    data: T,
    message: string,
    success: bool)

  const DefaultErrorMessage := "Something went wrong"
  const DefaultResponseMessage := "Success"

  /** `new ApiError(statusCode, message?, errors?, stack?)`; `None` stands for
      an omitted (undefined) argument, which takes the default. */
  function NewApiError(statusCode: int, message: Option<string>,
                       errors: Option<seq<Json>>, stack: Option<string>): (e: ApiError)
    ensures e.statusCode == statusCode
    ensures message.None? ==> e.message == DefaultErrorMessage
    ensures message.Some? ==> e.message == message.value
    ensures errors.None? ==> e.errors == []
    ensures errors.Some? ==> e.errors == errors.value
    ensures !e.success && e.data == JNull
    ensures e.stack.Supplied? <==> Truthy(stack)
    ensures Truthy(stack) ==> e.stack == Supplied(stack.value)
  {
    ApiError(
      statusCode,
      JNull,
      if message.Some? then message.value else DefaultErrorMessage,
      false,
      if errors.Some? then errors.value else [],
      if Truthy(stack) then Supplied(stack.value) else Captured)
  }

  /** `new ApiError(statusCode, message)`, the form every throw site uses. */
  function Fail(statusCode: int, message: string): (e: ApiError)
    ensures e == NewApiError(statusCode, Some(message), None, None)
  {
    ApiError(statusCode, JNull, message, false, [], Captured)
  }

  /** `new ApiResponse(statusCode, data, message?)`. */
  function NewApiResponse<T>(statusCode: int, data: T, message: Option<string>): (r: ApiResponse<T>)
    ensures r.statusCode == statusCode && r.data == data
    ensures message.None? ==> r.message == DefaultResponseMessage
    ensures message.Some? ==> r.message == message.value
    ensures r.success <==> statusCode < 400
  {
    ApiResponse(statusCode, data, if message.Some? then message.value else DefaultResponseMessage, statusCode < 400)
  }

  /** The JSON object `res.json` sends for an `ApiResponse` instance: its four
      own properties. */
  function ResponseJson(r: ApiResponse<Json>): (j: Json)
    ensures j.JObj? && j.fields.Keys == {"statusCode", "data", "message", "success"}
    ensures j.fields["statusCode"] == JNum(r.statusCode) && j.fields["message"] == JStr(r.message)
    ensures j.fields["data"] == r.data && j.fields["success"] == JBool(r.success)
  {
    JObj(map[
      "statusCode" := JNum(r.statusCode),
      "data" := r.data,
      "message" := JStr(r.message),
      "success" := JBool(r.success)])
  }

  /** The two cases of the error tests: every field supplied, and only the
      status code supplied. */
  lemma ApiErrorTestCases()
    ensures var e := NewApiError(400, Some("Bad Request"), Some([JStr("Invalid input")]), Some("stack trace here"));
      e.statusCode == 400 && e.message == "Bad Request" && e.errors == [JStr("Invalid input")]
      && !e.success && e.stack == Supplied("stack trace here")
    ensures var e := NewApiError(500, None, None, None);
      e.statusCode == 500 && e.message == "Something went wrong" && e.errors == []
      && !e.success && e.stack == Captured
  {
  }

  /** The error envelope never reports success, and for an error status the
      success envelope agrees with it. */
  lemma EnvelopesAgreeOnFailure<T>(statusCode: int, data: T, message: Option<string>)
    ensures !NewApiError(statusCode, message, None, None).success
    ensures statusCode >= 400 ==>
      NewApiResponse(statusCode, data, message).success == NewApiError(statusCode, message, None, None).success
  {
  }
}

=== FILE: registration.dfy ===
/** `registerUser`: the ordered checks of a registration request, the two
    uploads and the insert, as a function from the request, the upload
    outcomes and the users collection to a response and the new collection. */
module Registration {
  import opened Base
  import opened Text
  import opened Envelope
  import opened UserModel

  /** The fields of `req.body` (absent ones are `None`). */
  datatype Body = Body(
    username: Option<string>,
    email: Option<string>,
    password: Option<string>,
    fullName: Option<string>)

  /** `req.files?.avatar?.[0]?.path` and `req.files?.coverImage?.[0]?.path`. */
  datatype Files = Files(avatarPath: Option<string>, coverImagePath: Option<string>)

  /** What the request ends in: a 201 reply carrying the success envelope, a
      thrown `ApiError`, or an error of the database layer (a 500 from the
      framework's default handler). */
  datatype Outcome =
    | Created(httpStatus: int, response: ApiResponse<PublicUser>)
    | Rejected(error: ApiError)
    | Crashed(cause: DbError)

  /** The outcome, the collection afterwards, and the local paths handed to
      the media upload, in the order they were uploaded. */
  datatype RegisterResult = RegisterResult(outcome: Outcome, store: Store, uploads: seq<string>)

  const FieldsRequired := "All fields are required"
  const UserExists := "User already exists"
  const AvatarRequired := "Avatar is required"
  const AvatarUploadFailed := "Failed to upload avatar"
  const UserCreated := "User created successfully"

  /** `!field || field.trim() === ""`. */
  predicate Blank(v: Option<string>) {
    v.None? || Trim(v.value) == ""
  }

  /** The controller's first check fails: some field is absent or holds only
      whitespace. */
  predicate AnyBlank(b: Body)
    ensures !AnyBlank(b) <==>
      && b.fullName.Some? && !AllSpace(b.fullName.value)
      && b.username.Some? && !AllSpace(b.username.value)
      && b.email.Some? && !AllSpace(b.email.value)
      && b.password.Some? && !AllSpace(b.password.value)
  {
    Blank(b.fullName) || Blank(b.username) || Blank(b.email) || Blank(b.password)
  }

  /** `User.find({ $or: [{ email }, { username }] })` is non-empty; the query
      values pass through the same `lowercase`/`trim` setters as stored ones. */
  predicate AlreadyRegistered(st: Store, b: Body)
    requires b.username.Some? && b.email.Some?
    ensures AlreadyRegistered(st, b) ==> |st.users| > 0
  {
    KeyTaken(st, NormalizeKey(b.username.value), NormalizeKey(b.email.value))
  }

  /** The paths handed to the upload, in order: the avatar, then the cover
      image when one was sent. */
  function UploadOrder(f: Files): (paths: seq<string>)
    requires Truthy(f.avatarPath)
    ensures |paths| == (if Truthy(f.coverImagePath) then 2 else 1) && paths[0] == f.avatarPath.value
    ensures |paths| == 2 ==> paths[1] == f.coverImagePath.value
  {
    [f.avatarPath.value] + (if Truthy(f.coverImagePath) then [f.coverImagePath.value] else [])
  }

  /** The fields handed to `User.create` once both uploads are back. The
      controller's own lower-casing of the username is absorbed by the
      setters: the cast fields are the normalised body fields, the avatar url
      and the cover url or "". */
  function NewUserFields(b: Body, avatarUrl: string, coverUrl: Option<string>): (f: Fields)
    requires b.username.Some?
    ensures var c := Cast(f);
      && c.username == Some(NormalizeKey(b.username.value))
      && (c.email.Some? <==> b.email.Some?)
      && (b.email.Some? ==> c.email.value == NormalizeKey(b.email.value))
      && (c.fullName.Some? <==> b.fullName.Some?)
      && (b.fullName.Some? ==> c.fullName.value == Trim(b.fullName.value))
      && c.password == b.password
      && c.avatar == Some(avatarUrl)
      && c.coverImage == Some(if coverUrl.Some? then coverUrl.value else "")
  {
    NormalizeKeyFacts(b.username.value);
    Fields(
      Some(ToLower(b.username.value)),
      b.email,
      b.fullName,
      b.password,
      Some(avatarUrl),
      Some(if coverUrl.Some? then coverUrl.value else ""))
  }

  /** `registerUser`. `upload` is the media upload (`None` when it fails),
      `hash` the bcrypt hash of the save hook. The checks run in a fixed
      order and the first that fails decides the reply; only a request that
      passes them all changes the collection. */
  function Register(body: Body, files: Files, upload: string -> Option<string>,
                    hash: string -> string, st: Store): (r: RegisterResult)
    ensures !r.outcome.Created? ==> r.store == st
    ensures AnyBlank(body) ==>
      r == RegisterResult(Rejected(Fail(400, FieldsRequired)), st, [])
    ensures !AnyBlank(body) && AlreadyRegistered(st, body) ==>
      r == RegisterResult(Rejected(Fail(409, UserExists)), st, [])
    ensures !AnyBlank(body) && !AlreadyRegistered(st, body) && !Truthy(files.avatarPath) ==>
      r == RegisterResult(Rejected(Fail(400, AvatarRequired)), st, [])
    ensures !AnyBlank(body) && !AlreadyRegistered(st, body) && Truthy(files.avatarPath) ==>
      r.uploads == UploadOrder(files)
    ensures !AnyBlank(body) && !AlreadyRegistered(st, body) && Truthy(files.avatarPath)
            && upload(files.avatarPath.value).None? ==>
      r.outcome == Rejected(Fail(500, AvatarUploadFailed))
    ensures r.outcome.Created? ==>
      && !AnyBlank(body) && !AlreadyRegistered(st, body) && Truthy(files.avatarPath)
      && upload(files.avatarPath.value).Some?
  {
    if AnyBlank(body) then
      RegisterResult(Rejected(Fail(400, FieldsRequired)), st, [])
    else if AlreadyRegistered(st, body) then
      RegisterResult(Rejected(Fail(409, UserExists)), st, [])
    else if !Truthy(files.avatarPath) then
      RegisterResult(Rejected(Fail(400, AvatarRequired)), st, [])
    else
      var avatar := upload(files.avatarPath.value);
      var cover := if Truthy(files.coverImagePath) then upload(files.coverImagePath.value) else None;
      var uploads := UploadOrder(files);
      if avatar.None? then
        RegisterResult(Rejected(Fail(500, AvatarUploadFailed)), st, uploads)
      else
        match Create(st, NewUserFields(body, avatar.value, cover), hash)
        case Err(e) => RegisterResult(Crashed(e), st, uploads)
        case Ok((st', u)) =>
          RegisterResult(Created(201, NewApiResponse(200, Public(u), Some(UserCreated))), st', uploads)
  }

  /** Every rejection is a failed `ApiError` with status 400, 409 or 500. */
  lemma RejectionStatuses(body: Body, files: Files, upload: string -> Option<string>,
                          hash: string -> string, st: Store)
    ensures var o := Register(body, files, upload, hash, st).outcome;
      o.Rejected? ==> o.error.statusCode in {400, 409, 500} && !o.error.success && o.error.data == JNull
  {
    var r := Register(body, files, upload, hash, st);
    if !AnyBlank(body) && !AlreadyRegistered(st, body) && Truthy(files.avatarPath)
       && upload(files.avatarPath.value).Some? {
      RegisterNeverCrashes(body, files, upload, hash, st);
      assert r.outcome.Created? || r.outcome.Crashed?;
    }
  }

  /** Fields that passed the request checks pass the schema and its unique
      indexes too. */
  lemma ChecksImplyCreate(st: Store, body: Body, avatarUrl: string, coverUrl: Option<string>,
                          hash: string -> string)
    ensures !AnyBlank(body) && !AlreadyRegistered(st, body) ==>
      Create(st, NewUserFields(body, avatarUrl, coverUrl), hash).Ok?
  {
    if AnyBlank(body) || AlreadyRegistered(st, body) {
      return;
    }
    var f := NewUserFields(body, avatarUrl, coverUrl);
    var c := Cast(f);
    var u := body.username.value;
    var e := body.email.value;
    NormalizeKeyFacts(u);
    NormalizeKeyFacts(e);
    assert c.username == Some(NormalizeKey(u)) && c.email == Some(NormalizeKey(e));
    assert Trim(u) != [] && Trim(e) != [];
    assert NormalizeKey(u) != [] && NormalizeKey(e) != [];
    assert c.fullName.value != [];
    assert c.password.value != [];
    var violations := RequiredViolations(c);
    assert violations == {} by {
      forall p: Path ensures p !in violations {
        match p
        case UsernamePath =>
        case EmailPath =>
        case FullNamePath =>
        case PasswordPath =>
      }
    }
    assert !KeyTaken(st, c.username.value, c.email.value);
  }

  /** The checks that precede `User.create` imply everything the schema and
      its unique indexes demand, so the insert never fails and the 500 of a
      failing database write is never produced. */
  lemma RegisterNeverCrashes(body: Body, files: Files, upload: string -> Option<string>,
                             hash: string -> string, st: Store)
    ensures !Register(body, files, upload, hash, st).outcome.Crashed?
  {
    if !AnyBlank(body) && !AlreadyRegistered(st, body) && Truthy(files.avatarPath)
       && upload(files.avatarPath.value).Some? {
      var cover := if Truthy(files.coverImagePath) then upload(files.coverImagePath.value) else None;
      ChecksImplyCreate(st, body, upload(files.avatarPath.value).value, cover, hash);
    }
  }

  /** A request is accepted exactly when it passes every check: no blank
      field, no conflicting user, an avatar path sent and its upload back. */
  lemma CreatedIffChecksPass(body: Body, files: Files, upload: string -> Option<string>,
                             hash: string -> string, st: Store)
    ensures Register(body, files, upload, hash, st).outcome.Created? <==>
      && !AnyBlank(body) && !AlreadyRegistered(st, body) && Truthy(files.avatarPath)
      && upload(files.avatarPath.value).Some?
  {
    RegisterNeverCrashes(body, files, upload, hash, st);
  }

  /** Case and surrounding whitespace of the username and email sent make
      no difference to the conflict check. */
  lemma ConflictIgnoresCaseAndPadding(st: Store, b: Body)
    requires b.username.Some? && b.email.Some?
    ensures var b' := b.(username := Some(ToLower(Trim(b.username.value))),
                         email := Some(ToLower(Trim(b.email.value))));
      AlreadyRegistered(st, b') <==> AlreadyRegistered(st, b)
  {
    NormalizeKeyFacts(b.username.value);
    NormalizeKeyFacts(b.email.value);
    TrimToLowerCommute(b.username.value);
    TrimToLowerCommute(b.email.value);
  }

  /** A successful registration adds exactly one fresh user, under the next
      id, and nothing else: its username is the lower-cased, trimmed username
      sent, its email the normalised email, its full name the trimmed full
      name, its password the hash of the one sent, its avatar the uploaded url
      and its cover image the cover url or "" when there is none. The reply is
      HTTP 201 with an envelope whose own status is 200 and whose data is the
      user without password or refresh token. */
  lemma RegisterCreatesOneUser(body: Body, files: Files, upload: string -> Option<string>,
                               hash: string -> string, st: Store)
    requires Valid(st)
    ensures var r := Register(body, files, upload, hash, st);
      r.outcome.Created? ==>
      && st.nextId !in st.users
      && st.nextId in r.store.users
      && var u := r.store.users[st.nextId];
      var cover := if Truthy(files.coverImagePath) then upload(files.coverImagePath.value) else None;
      && r.store.users == st.users[st.nextId := u]
      && |r.store.users| == |st.users| + 1
      && Valid(r.store)
      && u.username == NormalizeKey(body.username.value)
      && u.email == NormalizeKey(body.email.value)
      && u.fullName == Trim(body.fullName.value)
      && u.password == hash(body.password.value)
      && u.avatar == Some(upload(files.avatarPath.value).value)
      && u.coverImage == Some(if cover.Some? then cover.value else "")
      && u.refreshToken == None
      && r.outcome.httpStatus == 201
      && r.outcome.response.statusCode == 200
      && r.outcome.response.success
      && r.outcome.response.message == UserCreated
      && r.outcome.response.data == Public(u)
  {
    var r := Register(body, files, upload, hash, st);
    if r.outcome.Created? {
      var cover := if Truthy(files.coverImagePath) then upload(files.coverImagePath.value) else None;
      var f := NewUserFields(body, upload(files.avatarPath.value).value, cover);
      var res := Create(st, f, hash);
      assert r.store == res.value.0 && r.outcome.response.data == Public(res.value.1);
      CreatePreservesValid(st, f, hash);
    }
  }

  /** A second registration that reuses the username or the email of a
      successful one is refused with 409 and changes nothing. */
  lemma RegisterTwiceConflicts(body: Body, files: Files, upload: string -> Option<string>,
                               hash: string -> string, st: Store,
                               body2: Body, files2: Files, upload2: string -> Option<string>,
                               hash2: string -> string)
    requires Valid(st)
    requires !AnyBlank(body2)
    ensures var r := Register(body, files, upload, hash, st);
      r.outcome.Created? &&
      (NormalizeKey(body2.username.value) == NormalizeKey(body.username.value)
       || NormalizeKey(body2.email.value) == NormalizeKey(body.email.value))
      ==> Register(body2, files2, upload2, hash2, r.store)
          == RegisterResult(Rejected(Fail(409, UserExists)), r.store, [])
  {
    var r := Register(body, files, upload, hash, st);
    if r.outcome.Created? {
      RegisterCreatesOneUser(body, files, upload, hash, st);
      if NormalizeKey(body2.username.value) == NormalizeKey(body.username.value)
         || NormalizeKey(body2.email.value) == NormalizeKey(body.email.value) {
        assert AlreadyRegistered(r.store, body2);
      }
    }
  }

  /** With a sound bcrypt, the password sent at registration verifies against
      the stored user. */
  lemma RegisteredPasswordVerifies(body: Body, files: Files, upload: string -> Option<string>,
                                   h: Hasher, st: Store)
    requires Valid(st) && Sound(h)
    ensures var r := Register(body, files, upload, h.hash, st);
      r.outcome.Created? ==>
        st.nextId in r.store.users && IsPasswordCorrect(r.store.users[st.nextId], body.password.value, h)
  {
    RegisterCreatesOneUser(body, files, upload, h.hash, st);
  }
}

=== FILE: response_cache.dfy ===
/** The two response-cache middlewares, `cache(duration)` and
    `catchAsync(duration)`, as transitions of a key-value store. The
    `duration` (the entry's time to live) is not modelled. */
module ResponseCache {
  import opened Base
  import opened Envelope

  /** The Redis client: reachable with its entries, or failing every call. */
  datatype Redis = Up(entries: map<string, string>) | Down

  /** `JSON.stringify` and `JSON.parse` (the latter `None` when it throws). */
  datatype Codec = Codec(stringify: Json -> string, parse: string -> Option<Json>)

  /** Stringified JSON is never empty and parses back to the value. */
  ghost predicate Faithful(c: Codec) {
    forall j :: c.stringify(j) != "" && c.parse(c.stringify(j)) == Some(j)
  }

  /** A call of `res.json(body)` with the status the response had then. */
  datatype Reply = Reply(status: int, body: Json)

  /** One pass through a middleware: whether `next()` was called, what
      reached the original `res.json` (if anything) and the store afterwards.
      `downstream` below is the reply the rest of the chain makes once `next`
      is called, `None` when it never calls `res.json`. */
  datatype Exchange = Exchange(nextCalled: bool, written: Option<Reply>, redis: Redis)

  const CachePrefix := "cache:"
  const CatchPrefix := "catchAsync:"
  const CacheHitMessage := "Data retrieved from cache"

  /** The status of a response nobody set a status on. */
  const DefaultStatus := 200

  function CacheKey(url: string): string {
    CachePrefix + url
  }

  function CatchKey(url: string): string {
    CatchPrefix + url
  }

  /** `await redis.get(key)` read for truthiness: a stored non-empty string. */
  function Cached(m: map<string, string>, key: string): (v: Option<string>)
    ensures v.Some? <==> key in m && m[key] != ""
    ensures v.Some? ==> v.value == m[key]
  {
    if key in m && m[key] != "" then Some(m[key]) else None
  }

  predicate IsSuccess(status: int) {
    200 <= status < 300
  }

  /** `cache(duration)` for a request to `url`. A hit replays the stored
      body without calling `next`; a miss calls `next` once and, when the
      reply is 2xx, stores its body. A failing store, or a stored value that
      does not parse, falls through to `next` without caching. */
  function Cache(redis: Redis, url: string, codec: Codec, downstream: Option<Reply>): (x: Exchange)
    ensures !x.nextCalled ==>
      && redis.Up? && Cached(redis.entries, CacheKey(url)).Some?
      && codec.parse(redis.entries[CacheKey(url)]).Some?
      && x.written == Some(Reply(DefaultStatus, codec.parse(redis.entries[CacheKey(url)]).value))
      && x.redis == redis
    ensures (redis.Up? && Cached(redis.entries, CacheKey(url)).Some?
             && codec.parse(redis.entries[CacheKey(url)]).Some?) ==> !x.nextCalled
    ensures x.nextCalled ==> x.written == downstream
    ensures x.redis != redis ==>
      && x.nextCalled && redis.Up? && downstream.Some? && IsSuccess(downstream.value.status)
      && x.redis == Up(redis.entries[CacheKey(url) := codec.stringify(downstream.value.body)])
    ensures redis.Up? && Cached(redis.entries, CacheKey(url)).Some? ==> x.redis == redis
    ensures (redis.Up? && Cached(redis.entries, CacheKey(url)).None?
             && downstream.Some? && IsSuccess(downstream.value.status)) ==>
      x.redis == Up(redis.entries[CacheKey(url) := codec.stringify(downstream.value.body)])
  {
    match redis
    case Down => Exchange(true, downstream, redis)
    case Up(m) =>
      var key := CacheKey(url);
      match Cached(m, key)
      case Some(text) =>
        (match codec.parse(text)
         case Some(body) => Exchange(false, Some(Reply(DefaultStatus, body)), redis)
         case None => Exchange(true, downstream, redis))
      case None =>
        var stored :=
          if downstream.Some? && IsSuccess(downstream.value.status)
          then Up(m[key := codec.stringify(downstream.value.body)])
          else redis;
        Exchange(true, downstream, stored)
  }

  /** `catchAsync(duration)` for a request to `url`. A hit answers 200 with
      the stored body wrapped in a success envelope, without calling `next`;
      a miss calls `next` once and stores every body sent, whatever its
      status. A failing store, or a stored value that does not parse, falls
      through to `next` without caching. */
  function CatchAsync(redis: Redis, url: string, codec: Codec, downstream: Option<Reply>): (x: Exchange)
    ensures !x.nextCalled ==>
      && redis.Up? && Cached(redis.entries, CatchKey(url)).Some?
      && codec.parse(redis.entries[CatchKey(url)]).Some?
      && x.written == Some(Reply(200, ResponseJson(NewApiResponse(200,
           codec.parse(redis.entries[CatchKey(url)]).value, Some(CacheHitMessage)))))
      && x.redis == redis
    ensures (redis.Up? && Cached(redis.entries, CatchKey(url)).Some?
             && codec.parse(redis.entries[CatchKey(url)]).Some?) ==> !x.nextCalled
    ensures x.nextCalled ==> x.written == downstream
    ensures x.redis != redis ==>
      && x.nextCalled && redis.Up? && downstream.Some?
      && x.redis == Up(redis.entries[CatchKey(url) := codec.stringify(downstream.value.body)])
    ensures redis.Up? && Cached(redis.entries, CatchKey(url)).Some? ==> x.redis == redis
    ensures (redis.Up? && Cached(redis.entries, CatchKey(url)).None? && downstream.Some?) ==>
      x.redis == Up(redis.entries[CatchKey(url) := codec.stringify(downstream.value.body)])
  {
    match redis
    case Down => Exchange(true, downstream, redis)
    case Up(m) =>
      var key := CatchKey(url);
      match Cached(m, key)
      case Some(text) =>
        (match codec.parse(text)
         case Some(body) =>
           Exchange(false, Some(Reply(200, ResponseJson(NewApiResponse(200, body, Some(CacheHitMessage))))), redis)
         case None => Exchange(true, downstream, redis))
      case None =>
        var stored := if downstream.Some? then Up(m[key := codec.stringify(downstream.value.body)]) else redis;
        Exchange(true, downstream, stored)
  }

  /** Keys of one middleware determine their url, and no key of `cache` is a
      key of `catchAsync`: the two never read each other's entries. */
  lemma KeysDisjoint(url: string, url2: string)
    ensures CacheKey(url) != CatchKey(url2)
    ensures CacheKey(url) == CacheKey(url2) ==> url == url2
    ensures CatchKey(url) == CatchKey(url2) ==> url == url2
  {
    assert CacheKey(url)[2] == 'c' && CatchKey(url2)[2] == 't';
    if CacheKey(url) == CacheKey(url2) {
      assert url == CacheKey(url)[|CachePrefix|..];
    }
    if CatchKey(url) == CatchKey(url2) {
      assert url == CatchKey(url)[|CatchPrefix|..];
    }
  }

  /** A miss calls `next` exactly once, stores a 2xx body and leaves the
      store untouched otherwise. */
  lemma CacheMiss(m: map<string, string>, url: string, codec: Codec, downstream: Option<Reply>)
    requires Cached(m, CacheKey(url)).None?
    ensures var x := Cache(Up(m), url, codec, downstream);
      && x.nextCalled && x.written == downstream
      && (downstream.Some? && IsSuccess(downstream.value.status) ==>
            x.redis == Up(m[CacheKey(url) := codec.stringify(downstream.value.body)]))
      && (downstream.None? || !IsSuccess(downstream.value.status) ==> x.redis == Up(m))
  {
  }

  /** A 2xx reply cached on a miss is replayed, unchanged and without calling
      `next`, to the next request for the same url. */
  lemma CacheRoundTrip(m: map<string, string>, url: string, codec: Codec, reply: Reply, later: Option<Reply>)
    requires Faithful(codec)
    requires Cached(m, CacheKey(url)).None?
    requires IsSuccess(reply.status)
    ensures var first := Cache(Up(m), url, codec, Some(reply));
      var second := Cache(first.redis, url, codec, later);
      !second.nextCalled && second.written == Some(Reply(DefaultStatus, reply.body))
  {
    assert codec.stringify(reply.body) != "" && codec.parse(codec.stringify(reply.body)) == Some(reply.body);
  }

  /** A non-2xx reply is never cached: the next request goes through again. */
  lemma CacheSkipsErrors(m: map<string, string>, url: string, codec: Codec, reply: Reply, later: Option<Reply>)
    requires Cached(m, CacheKey(url)).None?
    requires !IsSuccess(reply.status)
    ensures var first := Cache(Up(m), url, codec, Some(reply));
      var second := Cache(first.redis, url, codec, later);
      first.redis == Up(m) && second.nextCalled && second.written == later
  {
  }

  /** A miss calls `next` exactly once and stores the body of whatever reply
      is sent, 2xx or not. */
  lemma CatchMiss(m: map<string, string>, url: string, codec: Codec, reply: Reply)
    requires Cached(m, CatchKey(url)).None?
    ensures var x := CatchAsync(Up(m), url, codec, Some(reply));
      && x.nextCalled && x.written == Some(reply)
      && x.redis == Up(m[CatchKey(url) := codec.stringify(reply.body)])
  {
  }

  /** Whatever `catchAsync` stored for a url is replayed as a 200 success
      envelope carrying the body, even a body that was sent with an error
      status. */
  lemma CatchRoundTrip(m: map<string, string>, url: string, codec: Codec, reply: Reply, later: Option<Reply>)
    requires Faithful(codec)
    requires Cached(m, CatchKey(url)).None?
    ensures var first := CatchAsync(Up(m), url, codec, Some(reply));
      var second := CatchAsync(first.redis, url, codec, later);
      && first.written == Some(reply)
      && !second.nextCalled
      && second.written.Some? && second.written.value.status == 200
      && var env := second.written.value.body;
         env.JObj? && env.fields["data"] == reply.body && env.fields["success"] == JBool(true)
         && env.fields["statusCode"] == JNum(200) && env.fields["message"] == JStr(CacheHitMessage)
  {
    assert codec.stringify(reply.body) != "" && codec.parse(codec.stringify(reply.body)) == Some(reply.body);
  }

  /** Each middleware writes only under its own key: running `cache` leaves
      every `catchAsync` entry as it was, and the other way round. */
  lemma MiddlewaresDoNotInterfere(redis: Redis, url: string, other: string, codec: Codec, downstream: Option<Reply>)
    requires redis.Up?
    ensures var x := Cache(redis, url, codec, downstream);
      x.redis.Up? && Cached(x.redis.entries, CatchKey(other)) == Cached(redis.entries, CatchKey(other))
    ensures var x := CatchAsync(redis, url, codec, downstream);
      x.redis.Up? && Cached(x.redis.entries, CacheKey(other)) == Cached(redis.entries, CacheKey(other))
  {
    KeysDisjoint(url, other);
    KeysDisjoint(other, url);
  }

  /** A store that fails changes nothing: the request passes through to
      `next` untouched by either middleware. */
  lemma DownStorePassesThrough(url: string, codec: Codec, downstream: Option<Reply>)
    ensures Cache(Down, url, codec, downstream) == Exchange(true, downstream, Down)
    ensures CatchAsync(Down, url, codec, downstream) == Exchange(true, downstream, Down)
  {
  }
}

=== FILE: text.dfy ===
/** The string primitives the core relies on: `String.prototype.trim`,
    `String.prototype.toLowerCase` and `String.prototype.replace` with a
    string pattern and an empty replacement. */
module Text {
  import opened Base

  /** The WhiteSpace and LineTerminator code points of ECMA-262: the set
      that `trim` removes from both ends. */
  predicate IsSpace(c: char) {
    || c == '\t' || c == '\n' || c == '\U{000B}' || c == '\U{000C}' || c == '\r'
    || c == ' ' || c == '\U{00A0}' || c == '\U{1680}'
    || ('\U{2000}' <= c <= '\U{200A}')
    || c == '\U{2028}' || c == '\U{2029}' || c == '\U{202F}' || c == '\U{205F}'
    || c == '\U{3000}' || c == '\U{FEFF}'
  }

  predicate AllSpace(s: string) {
    forall i :: 0 <= i < |s| ==> IsSpace(s[i])
  }

  /** Drops leading whitespace: the result is a suffix of `s`, and what was
      dropped is all whitespace. */
  function TrimStart(s: string): (r: string)
    ensures |r| <= |s| && r == s[|s| - |r|..]
    ensures r == [] || !IsSpace(r[0])
    ensures forall i :: 0 <= i < |s| - |r| ==> IsSpace(s[i])
  {
    if |s| > 0 && IsSpace(s[0]) then TrimStart(s[1..]) else s
  }

  /** Drops trailing whitespace: the result is a prefix of `s`, and what was
      dropped is all whitespace. */
  function TrimEnd(s: string): (r: string)
    ensures |r| <= |s| && r == s[..|r|]
    ensures r == [] || !IsSpace(r[|r| - 1])
    ensures forall i :: |r| <= i < |s| ==> IsSpace(s[i])
  {
    if |s| > 0 && IsSpace(s[|s| - 1]) then TrimEnd(s[..|s| - 1]) else s
  }

  /** `s.trim()`. */
  function Trim(s: string): (r: string)
    ensures r == [] || (!IsSpace(r[0]) && !IsSpace(r[|r| - 1]))
    ensures r == [] <==> AllSpace(s)
  {
    var t := TrimStart(s);
    var r := TrimEnd(t);
    assert r == [] ==> t == [];
    r
  }

  /** The trimmed string is `s` with a whitespace prefix and a whitespace
      suffix removed. */
  lemma TrimIsInfix(s: string) returns (a: nat)
    ensures a + |Trim(s)| <= |s|
    ensures Trim(s) == s[a..a + |Trim(s)|]
    ensures AllSpace(s[..a]) && AllSpace(s[a + |Trim(s)|..])
  {
    var t := TrimStart(s);
    var r := TrimEnd(t);
    a := |s| - |t|;
    assert t == s[a..];
    assert r == s[a..a + |r|];
    var suffix := s[a + |r|..];
    forall i | 0 <= i < |suffix| ensures IsSpace(suffix[i]) {
      assert suffix[i] == t[|r| + i];
    }
  }

  /** Trimming twice is trimming once: a stored trimmed value is a fixed point. */
  lemma TrimIdempotent(s: string)
    ensures Trim(Trim(s)) == Trim(s)
  {
    var r := Trim(s);
    assert TrimStart(r) == r;
    assert TrimEnd(r) == r;
  }

  /** `toLowerCase` on one character (ASCII letters only). */
  function LowerChar(c: char): (d: char)
    ensures !('A' <= d <= 'Z')
  {
    if 'A' <= c <= 'Z' then (c as int + 32) as char else c
  }

  /** `s.toLowerCase()`, character by character. */
  function ToLower(s: string): (r: string)
    ensures |r| == |s|
    ensures forall i :: 0 <= i < |s| ==> r[i] == LowerChar(s[i])
  {
    seq(|s|, i requires 0 <= i < |s| => LowerChar(s[i]))
  }

  /** Lower-casing leaves no upper-case ASCII letter and keeps every other
      character in place. */
  lemma ToLowerKeepsNonLetters(s: string)
    ensures forall i :: 0 <= i < |s| ==> !('A' <= ToLower(s)[i] <= 'Z')
    ensures forall i :: 0 <= i < |s| && !('A' <= s[i] <= 'Z') ==> ToLower(s)[i] == s[i]
  {
  }

  /** Lower-casing is idempotent. */
  lemma ToLowerIdempotent(s: string)
    ensures ToLower(ToLower(s)) == ToLower(s)
  {
  }

  /** Lower-casing neither creates nor removes whitespace. */
  lemma LowerCharKeepsSpace(c: char)
    ensures IsSpace(LowerChar(c)) <==> IsSpace(c)
  {
  }

  lemma {:induction false} TrimStartToLower(s: string)
    ensures TrimStart(ToLower(s)) == ToLower(TrimStart(s))
    decreases |s|
  {
    if |s| > 0 {
      LowerCharKeepsSpace(s[0]);
      if IsSpace(s[0]) {
        assert ToLower(s)[1..] == ToLower(s[1..]);
        TrimStartToLower(s[1..]);
      }
    }
  }

  lemma ToLowerTake(s: string, n: nat)
    requires n <= |s|
    ensures ToLower(s)[..n] == ToLower(s[..n])
  {
  }

  lemma TrimEndStep(s: string)
    requires |s| > 0 && IsSpace(s[|s| - 1])
    ensures TrimEnd(s) == TrimEnd(s[..|s| - 1])
  {
  }

  lemma TrimEndStop(s: string)
    requires |s| > 0 && !IsSpace(s[|s| - 1])
    ensures TrimEnd(s) == s
  {
  }

  lemma {:induction false} TrimEndToLower(s: string)
    ensures TrimEnd(ToLower(s)) == ToLower(TrimEnd(s))
    decreases |s|
  {
    if |s| > 0 {
      var n := |s| - 1;
      var low := ToLower(s);
      LowerCharKeepsSpace(s[n]);
      assert low[n] == LowerChar(s[n]);
      if IsSpace(s[n]) {
        TrimEndStep(s);
        TrimEndStep(low);
        ToLowerTake(s, n);
        TrimEndToLower(s[..n]);
      } else {
        TrimEndStop(s);
        TrimEndStop(low);
      }
    }
  }

  /** The order in which the `trim` and `lowercase` setters run does not
      matter. */
  lemma TrimToLowerCommute(s: string)
    ensures Trim(ToLower(s)) == ToLower(Trim(s))
  {
    TrimStartToLower(s);
    TrimEndToLower(TrimStart(s));
  }

  /** `pat` occurs in `s` starting at index `i`. */
  predicate OccursAt(s: string, pat: string, i: int) {
    0 <= i && i + |pat| <= |s| && s[i..i + |pat|] == pat
  }

  /** `s.indexOf(pat, k)`: the first occurrence at or after `k`. */
  function IndexFrom(s: string, pat: string, k: nat): (r: Option<nat>)
    ensures r.Some? ==> k <= r.value && OccursAt(s, pat, r.value)
    ensures r.Some? ==> forall j :: k <= j < r.value ==> !OccursAt(s, pat, j)
    ensures r.None? ==> forall j :: k <= j ==> !OccursAt(s, pat, j)
    decreases |s| - k
  {
    if k + |pat| > |s| then None
    else if s[k..k + |pat|] == pat then Some(k)
    else IndexFrom(s, pat, k + 1)
  }

  /** `s.replace(pat, "")`: removes the first occurrence of `pat`, wherever
      it is, and leaves `s` as it is when `pat` does not occur. */
  function RemoveFirst(s: string, pat: string): (r: string)
    ensures (forall j :: !OccursAt(s, pat, j)) ==> r == s
    ensures forall i :: OccursAt(s, pat, i) && (forall j :: 0 <= j < i ==> !OccursAt(s, pat, j))
              ==> r == s[..i] + s[i + |pat|..]
  {
    match IndexFrom(s, pat, 0)
    case None => s
    case Some(i) => s[..i] + s[i + |pat|..]
  }

  /** A string that starts with `pat` loses exactly that prefix. */
  lemma RemoveFirstPrefix(pat: string, t: string)
    ensures RemoveFirst(pat + t, pat) == t
  {
    assert OccursAt(pat + t, pat, 0) by {
      assert (pat + t)[0..|pat|] == pat;
    }
    assert (pat + t)[|pat|..] == t;
  }
}

=== FILE: user_model.dfy ===
/** The `User` model: schema field rules, the password-hashing save hook,
    password checking and the claims of the two issued tokens, over a store
    that plays the part of the users collection. */
module UserModel {
  import opened Base
  import opened Text

  /** A document id (an ObjectId). */
  type Id = nat

  /** A stored user document; timestamps are not modelled. */
  datatype User = User(
    id: Id,
    username: string,
    email: string,
    fullName: string,
    avatar: Option<string>,
    coverImage: Option<string>,
    watchHistory: seq<Id>,
    password: string,
    refreshToken: Option<string>)

  /** A user as read with `select("-password -refreshToken")`. */
  datatype PublicUser = PublicUser(
    id: Id,
    username: string,
    email: string,
    fullName: string,
    avatar: Option<string>,
    coverImage: Option<string>,
    watchHistory: seq<Id>)

  function Public(u: User): (p: PublicUser)
    ensures p.id == u.id && p.username == u.username && p.email == u.email
    ensures p.fullName == u.fullName && p.avatar == u.avatar && p.coverImage == u.coverImage
    ensures p.watchHistory == u.watchHistory
  {
    PublicUser(u.id, u.username, u.email, u.fullName, u.avatar, u.coverImage, u.watchHistory)
  }

  /** The projection carries nothing of the password or the refresh token:
      two users that differ only there project to the same record. */
  lemma PublicHidesSecrets(u: User, password: string, refreshToken: Option<string>)
    ensures Public(u.(password := password, refreshToken := refreshToken)) == Public(u)
  {
  }

  // ---------------------------------------------------------------------
  // Schema rules

  lemma AllSpaceToLower(s: string)
    ensures AllSpace(ToLower(s)) <==> AllSpace(s)
  {
    forall i | 0 <= i < |s| ensures IsSpace(ToLower(s)[i]) <==> IsSpace(s[i]) {
      LowerCharKeepsSpace(s[i]);
    }
  }

  /** What the `lowercase` and `trim` setters of `username` and `email` make
      of an assigned value (the setter order does not matter, see
      `TrimToLowerCommute`). */
  function NormalizeKey(s: string): string {
    Trim(ToLower(s))
  }

  /** A normalised key is trimmed and lower-case already, and it is empty
      exactly when the input was all whitespace; lower-casing the input first
      changes nothing. */
  lemma NormalizeKeyFacts(s: string)
    ensures var r := NormalizeKey(s); Trim(r) == r && ToLower(r) == r
    ensures NormalizeKey(s) == [] <==> AllSpace(s)
    ensures NormalizeKey(ToLower(s)) == NormalizeKey(s)
  {
    TrimIdempotent(ToLower(s));
    ToLowerIdempotent(s);
    TrimToLowerCommute(ToLower(s));
    AllSpaceToLower(s);
  }

  /** The values handed to `User.create` (absent fields are `None`). */
  datatype Fields = Fields(
    username: Option<string>,
    email: Option<string>,
    fullName: Option<string>,
    password: Option<string>,
    avatar: Option<string>,
    coverImage: Option<string>)

  /** Casting through the schema setters: `username` and `email` are trimmed
      and lower-cased, `fullName` is trimmed with its case kept, the rest is
      kept. */
  function Cast(f: Fields): (c: Fields)
    ensures c.username.Some? <==> f.username.Some?
    ensures c.email.Some? <==> f.email.Some?
    ensures c.fullName.Some? <==> f.fullName.Some?
    ensures f.username.Some? ==> c.username.value == Trim(ToLower(f.username.value))
    ensures f.email.Some? ==> c.email.value == Trim(ToLower(f.email.value))
    ensures f.fullName.Some? ==> c.fullName.value == Trim(f.fullName.value)
    ensures c.password == f.password && c.avatar == f.avatar && c.coverImage == f.coverImage
  {
    Fields(
      if f.username.Some? then Some(NormalizeKey(f.username.value)) else None,
      if f.email.Some? then Some(NormalizeKey(f.email.value)) else None,
      if f.fullName.Some? then Some(Trim(f.fullName.value)) else None,
      f.password, f.avatar, f.coverImage)
  }

  /** After casting, a stored `username` and `email` are the lower-cased
      input with surrounding whitespace removed, in either order, and are
      fixed points of both setters; a stored `fullName` is the trimmed input
      with its case kept; casting again changes nothing. */
  lemma CastNormalForm(f: Fields)
    ensures var c := Cast(f);
      && (f.username.Some? ==> c.username.value == ToLower(Trim(f.username.value)))
      && (f.email.Some? ==> c.email.value == ToLower(Trim(f.email.value)))
      && (f.fullName.Some? ==> c.fullName.value == Trim(f.fullName.value))
      && (c.username.Some? ==> Trim(c.username.value) == c.username.value && ToLower(c.username.value) == c.username.value)
      && (c.email.Some? ==> Trim(c.email.value) == c.email.value && ToLower(c.email.value) == c.email.value)
      && (c.fullName.Some? ==> Trim(c.fullName.value) == c.fullName.value)
    ensures Cast(Cast(f)) == Cast(f)
  {
    var c := Cast(f);
    if f.username.Some? {
      NormalizeKeyFacts(f.username.value);
      TrimToLowerCommute(f.username.value);
      TrimToLowerCommute(c.username.value);
    }
    if f.email.Some? {
      NormalizeKeyFacts(f.email.value);
      TrimToLowerCommute(f.email.value);
      TrimToLowerCommute(c.email.value);
    }
    if f.fullName.Some? { TrimIdempotent(f.fullName.value); }
  }

  /** The schema paths declared `required`. */
  datatype Path = UsernamePath | EmailPath | FullNamePath | PasswordPath

  /** The value fails a `required` string path: absent or empty. */
  predicate Missing(v: Option<string>) {
    v.None? || v.value == ""
  }

  /** Mongoose's required check on cast values: a string path fails when it
      is absent or empty. */
  function RequiredViolations(c: Fields): (paths: set<Path>)
    ensures UsernamePath in paths <==> c.username.None? || c.username.value == ""
    ensures EmailPath in paths <==> c.email.None? || c.email.value == ""
    ensures FullNamePath in paths <==> c.fullName.None? || c.fullName.value == ""
    ensures PasswordPath in paths <==> c.password.None? || c.password.value == ""
  {
    (if Missing(c.username) then {UsernamePath} else {})
    + (if Missing(c.email) then {EmailPath} else {})
    + (if Missing(c.fullName) then {FullNamePath} else {})
    + (if Missing(c.password) then {PasswordPath} else {})
  }

  /** Seen from the raw values: a whitespace-only `username`, `email` or
      `fullName` fails, but a whitespace-only password does not. */
  lemma RequiredOnRawFields(f: Fields)
    ensures var paths := RequiredViolations(Cast(f));
      && (UsernamePath in paths <==> f.username.None? || AllSpace(f.username.value))
      && (EmailPath in paths <==> f.email.None? || AllSpace(f.email.value))
      && (FullNamePath in paths <==> f.fullName.None? || AllSpace(f.fullName.value))
      && (PasswordPath in paths <==> f.password.None? || f.password.value == "")
  {
    if f.username.Some? { NormalizeKeyFacts(f.username.value); }
    if f.email.Some? { NormalizeKeyFacts(f.email.value); }
  }

  // ---------------------------------------------------------------------
  // Password hashing

  /** bcrypt as two opaque functions; `hash` embodies the salt of one call. */
  datatype Hasher = Hasher(hash: string -> string, compare: (string, string) -> bool)

  /** The one property of bcrypt the model relies on. */
  ghost predicate Sound(h: Hasher) {
    forall p :: h.compare(p, h.hash(p))
  }

  /** A loaded document together with Mongoose's "password was modified" flag. */
  datatype Doc = Doc(user: User, passwordModified: bool)

  /** Assigning a new (plain-text) password marks the path modified. */
  function SetPassword(d: Doc, password: string): (d': Doc)
    ensures d'.passwordModified && d'.user.password == password
    ensures d'.user == d.user.(password := password)
  {
    Doc(d.user.(password := password), true)
  }

  /** The `pre("save")` hook followed by the write: a modified password is
      replaced by its hash, an unmodified one is kept as it is, and every
      other field is kept. After the save nothing is modified any more. */
  function Save(d: Doc, hash: string -> string): (d': Doc)
    ensures !d'.passwordModified
    ensures d'.user.(password := d.user.password) == d.user
    ensures d.passwordModified ==> d'.user.password == hash(d.user.password)
    ensures !d.passwordModified ==> d'.user.password == d.user.password
  {
    if !d.passwordModified then Doc(d.user, false)
    else Doc(d.user.(password := hash(d.user.password)), false)
  }

  /** Saving a saved document again never hashes the hash. */
  lemma SaveNeverDoubleHashes(d: Doc, hash1: string -> string, hash2: string -> string)
    ensures Save(Save(d, hash1), hash2) == Save(d, hash1)
  {
  }

  /** `isPasswordCorrect(p)`: bcrypt's compare of `p` with the stored hash.
      Under a sound bcrypt, the password whose hash is stored is accepted. */
  function IsPasswordCorrect(u: User, password: string, h: Hasher): (ok: bool)
    ensures Sound(h) && u.password == h.hash(password) ==> ok
  {
    h.compare(password, u.password)
  }

  /** A password that was set and then saved verifies afterwards. */
  lemma SetThenSaveVerifies(d: Doc, password: string, h: Hasher)
    requires Sound(h)
    ensures IsPasswordCorrect(Save(SetPassword(d, password), h.hash).user, password, h)
  {
  }

  // ---------------------------------------------------------------------
  // The users collection

  /** The users collection; `nextId` stands in for ObjectId generation. */
  datatype Store = Store(users: map<Id, User>, nextId: Id)

  /** Ids are below the counter and match their documents, and the unique
      indexes on `username` and `email` hold. */
  ghost predicate Valid(st: Store) {
    && (forall id :: id in st.users ==> id < st.nextId && st.users[id].id == id)
    && (forall a, b :: a in st.users && b in st.users && a != b ==>
          st.users[a].username != st.users[b].username && st.users[a].email != st.users[b].email)
  }

  /** Some stored user already has this username or this email. */
  predicate KeyTaken(st: Store, username: string, email: string) {
    exists id | id in st.users :: st.users[id].username == username || st.users[id].email == email
  }

  datatype DbError = ValidationFailed(paths: set<Path>) | DuplicateKey

  /** `User.create(fields)`: setters, required-field validation, the save
      hook (a new document's password counts as modified), the unique
      indexes, then the insert. */
  function Create(st: Store, f: Fields, hash: string -> string): (r: Result<(Store, User), DbError>)
    ensures r.Err? && r.error.ValidationFailed? <==> RequiredViolations(Cast(f)) != {}
    ensures r.Err? && r.error.ValidationFailed? ==> r.error.paths == RequiredViolations(Cast(f))
    ensures r.Err? && r.error.DuplicateKey? <==>
      RequiredViolations(Cast(f)) == {} && KeyTaken(st, Cast(f).username.value, Cast(f).email.value)
    ensures r.Ok? ==>
      var (st', u) := r.value;
      var c := Cast(f);
      && u.id == st.nextId && st'.nextId == st.nextId + 1
      && st'.users == st.users[u.id := u]
      && u.username == c.username.value && u.email == c.email.value && u.fullName == c.fullName.value
      && u.password == hash(f.password.value)
      && u.avatar == f.avatar && u.coverImage == f.coverImage
      && u.watchHistory == [] && u.refreshToken == None
  {
    var c := Cast(f);
    var violations := RequiredViolations(c);
    if violations != {} then Err(ValidationFailed(violations))
    else
      var draft := User(st.nextId, c.username.value, c.email.value, c.fullName.value,
                        c.avatar, c.coverImage, [], c.password.value, None);
      var u := Save(Doc(draft, true), hash).user;
      if KeyTaken(st, u.username, u.email) then Err(DuplicateKey)
      else Ok((Store(st.users[u.id := u], st.nextId + 1), u))
  }

  /** A successful create keeps the collection valid and adds exactly one
      fresh document. */
  lemma CreatePreservesValid(st: Store, f: Fields, hash: string -> string)
    requires Valid(st)
    ensures Create(st, f, hash).Ok? ==>
      var st' := Create(st, f, hash).value.0;
      var u := Create(st, f, hash).value.1;
      Valid(st') && u.id !in st.users && |st'.users| == |st.users| + 1
  {
    var r := Create(st, f, hash);
    if r.Ok? {
      var st' := r.value.0;
      var u := r.value.1;
      assert u.id == st.nextId && u.id !in st.users;
      assert st'.users == st.users[u.id := u] && st'.nextId == st.nextId + 1;
      assert !KeyTaken(st, u.username, u.email);
      InsertPreservesValid(st, u);
    }
  }

  /** Inserting a document under the next id, when neither of its keys is
      taken, keeps the collection valid. */
  lemma InsertPreservesValid(st: Store, u: User)
    requires Valid(st) && u.id == st.nextId && !KeyTaken(st, u.username, u.email)
    ensures Valid(Store(st.users[u.id := u], st.nextId + 1))
    ensures |st.users[u.id := u]| == |st.users| + 1
  {
    var st' := Store(st.users[u.id := u], st.nextId + 1);
    forall a, b | a in st'.users && b in st'.users && a != b
      ensures st'.users[a].username != st'.users[b].username && st'.users[a].email != st'.users[b].email
    {
      if a == u.id {
        assert b in st.users;
      } else if b == u.id {
        assert a in st.users;
      }
    }
  }

  // ---------------------------------------------------------------------
  // Tokens

  /** A claim value of a token payload. jsonwebtoken serialises `this._id`
      (an ObjectId) as its hex string and `User.findById` casts that string
      back, so `IdClaim(id)` stands for "a string that casts to the ObjectId
      `id`"; a `TextClaim` never names a user. `NumClaim` carries the numeric
      dates of the registered claims. */
  datatype Claim = IdClaim(id: Id) | TextClaim(text: string) | NumClaim(n: int)

  type Payload = map<string, Claim>

  /** The registered claims jsonwebtoken adds when signing: `iat` always,
      `exp` when an `expiresIn` is given. */
  const RegisteredClaims: set<string> := {"iat", "exp"}

  /** A decoded payload gives back every signed claim unchanged and adds at
      most the registered claims. */
  predicate Extends(d: Option<Payload>, p: Payload) {
    && d.Some?
    && p.Keys <= d.value.Keys <= p.Keys + RegisteredClaims
    && forall k | k in p :: d.value[k] == p[k]
  }

  /** jsonwebtoken as two opaque functions: `sign(payload, secret, expiresIn)`
      and `verify(token, secret)`, the latter `None` when it throws. */
  datatype Jwt = Jwt(sign: (Payload, string, string) -> string, verify: (string, string) -> Option<Payload>)

  /** A secret and an expiry `sign` accepts; with an empty secret or an
      empty expiry jsonwebtoken throws instead of signing. A non-empty expiry
      is taken to be a valid timespan (see the README). */
  predicate Usable(secret: string, expiry: string) {
    secret != "" && expiry != ""
  }

  /** With a usable secret and expiry, a signed token is non-empty and
      verifies with its own secret, giving back its payload plus the
      registered claims (within its lifetime; clocks are not modelled). */
  ghost predicate Consistent(jwt: Jwt) {
    forall p, secret, expiry | Usable(secret, expiry) ::
      jwt.sign(p, secret, expiry) != "" && Extends(jwt.verify(jwt.sign(p, secret, expiry), secret), p)
  }

  /** A token signed with a usable secret does not verify with any other
      secret. */
  ghost predicate SecretBound(jwt: Jwt) {
    forall p, secret, expiry, other | Usable(secret, expiry) && other != secret ::
      jwt.verify(jwt.sign(p, secret, expiry), other).None?
  }

  /** The environment's `JWT_SECRET`, `JWT_EXPIRY`, `JWT_REFRESH_SECRET` and
      `JWT_REFRESH_EXPIRY`. */
  datatype TokenConfig = TokenConfig(
    accessSecret: string,
    accessExpiry: string,
    refreshSecret: string,
    refreshExpiry: string)

  /** Both secrets and both expiries are set, so neither token call throws. */
  predicate WellFormed(cfg: TokenConfig) {
    Usable(cfg.accessSecret, cfg.accessExpiry) && Usable(cfg.refreshSecret, cfg.refreshExpiry)
  }

  /** `decoded?._id`, when it names a document id. */
  function ClaimedId(p: Payload): (r: Option<Id>)
    ensures r.Some? <==> "_id" in p && p["_id"].IdClaim?
    ensures r.Some? ==> p["_id"] == IdClaim(r.value)
  {
    if "_id" in p && p["_id"].IdClaim? then Some(p["_id"].id) else None
  }

  function AccessClaims(u: User): Payload {
    map[
      "_id" := IdClaim(u.id),
      "username" := TextClaim(u.username),
      "fullName" := TextClaim(u.fullName),
      "email" := TextClaim(u.email),
      "password" := TextClaim(u.password)]
  }

  function RefreshClaims(u: User): Payload {
    map["_id" := IdClaim(u.id)]
  }

  /** `generateAccessToken()`: signed with the access secret and expiry. */
  function GenerateAccessToken(u: User, cfg: TokenConfig, jwt: Jwt): (t: string)
    ensures Consistent(jwt) && Usable(cfg.accessSecret, cfg.accessExpiry) ==>
      t != "" && Extends(jwt.verify(t, cfg.accessSecret), AccessClaims(u))
  {
    jwt.sign(AccessClaims(u), cfg.accessSecret, cfg.accessExpiry)
  }

  /** `generateRefreshToken()`: signed with the refresh secret and expiry. */
  function GenerateRefreshToken(u: User, cfg: TokenConfig, jwt: Jwt): (t: string)
    ensures Consistent(jwt) && Usable(cfg.refreshSecret, cfg.refreshExpiry) ==>
      t != "" && Extends(jwt.verify(t, cfg.refreshSecret), RefreshClaims(u))
  {
    jwt.sign(RefreshClaims(u), cfg.refreshSecret, cfg.refreshExpiry)
  }

  /** Decoding an access token with the access secret yields the claims id,
      username, fullName, email and password, the last being the stored hash,
      and besides them only the registered claims. */
  lemma AccessTokenClaims(u: User, cfg: TokenConfig, jwt: Jwt)
    requires Consistent(jwt) && WellFormed(cfg)
    ensures var d := jwt.verify(GenerateAccessToken(u, cfg, jwt), cfg.accessSecret);
      && d.Some?
      && d.value.Keys - RegisteredClaims == {"_id", "username", "fullName", "email", "password"}
      && ClaimedId(d.value) == Some(u.id)
      && d.value["username"] == TextClaim(u.username)
      && d.value["fullName"] == TextClaim(u.fullName)
      && d.value["email"] == TextClaim(u.email)
      && d.value["password"] == TextClaim(u.password)
  {
    var d := jwt.verify(GenerateAccessToken(u, cfg, jwt), cfg.accessSecret);
    var p := AccessClaims(u);
    assert Extends(d, p);
    assert p["_id"] == IdClaim(u.id);
  }

  /** Decoding a refresh token with the refresh secret yields the id claim
      and besides it only the registered claims; with a distinct access
      secret it does not verify. */
  lemma RefreshTokenClaims(u: User, cfg: TokenConfig, jwt: Jwt)
    requires Consistent(jwt) && WellFormed(cfg)
    ensures var d := jwt.verify(GenerateRefreshToken(u, cfg, jwt), cfg.refreshSecret);
      d.Some? && d.value.Keys - RegisteredClaims == {"_id"} && ClaimedId(d.value) == Some(u.id)
    ensures SecretBound(jwt) && cfg.accessSecret != cfg.refreshSecret ==>
      jwt.verify(GenerateRefreshToken(u, cfg, jwt), cfg.accessSecret).None?
  {
    var d := jwt.verify(GenerateRefreshToken(u, cfg, jwt), cfg.refreshSecret);
    var p := RefreshClaims(u);
    assert Extends(d, p);
    assert p["_id"] == IdClaim(u.id);
  }

  /** A verify that adds an issued-at date to the signed claims meets
      `Extends`, so `Consistent` admits jsonwebtoken's behaviour; one that
      adds any other claim does not. */
  lemma IssuedAtAllowed(p: Payload, iat: int, other: string)
    requires "iat" !in p && other !in p && other !in RegisteredClaims
    ensures Extends(Some(p["iat" := NumClaim(iat)]), p)
    ensures !Extends(Some(p[other := NumClaim(iat)]), p)
  {
    assert other in p[other := NumClaim(iat)].Keys;
  }
}
